=== FILE: README.md ===
# MSTD stream anomaly detector, modelled in Dafny

The `MSTD` class of `efficient-data-stream-anomaly-detection.py` watches a stream
of numeric samples. For every sample it keeps:

- the sample history;
- once a full window of `window_size` samples exists, the moving average (MA) and
  the moving population standard deviation (MSTD) of the trailing window;
- a log of the samples it found anomalous.

A sample is anomalous when its distance from the latest MA is strictly greater
than `threshold` times the latest MSTD.

The model is functional. One `Mstd.State` record holds the four lists and the
configuration, and the two methods of the class are pure transitions:

- `Mstd.Ingest` models `moving_average_and_moving_standard_deviation`;
- `Mstd.FindAnomaly` models `find_anomaly`.

`Stream.Run` feeds a whole stream through the chained call
`moving_average_and_moving_standard_deviation(value).find_anomaly()`.
It is proved equal to an independent, position-by-position description of which
samples are anomalous (`Stream.AnomaliesAmong`).

Samples are exact reals, not IEEE doubles. Exact reals have no square root, so the
state keeps the window variance where the object keeps its square root, the
standard deviation. The variance determines the standard deviation completely.
The anomaly rule is decided from the variance by `Threshold.Exceeds`. Its contract
states that it gives the same answer as the comparison `find_anomaly` makes,
`abs(x - ma) > threshold * s`, for every non-negative `s` with `s * s == variance`.
This holds for every real threshold, including negative ones.

The class validates neither the range of `window_size` nor the sign of
`threshold`; it only checks their types. The model accepts any real threshold,
and negative thresholds follow the same comparison. With window size 1 the
window holds only the current sample. Its mean is that sample and its deviation
is 0, so nothing is ever flagged (`Stream.WindowSizeOneNeverFlags`).

Modules:

- `WindowStats` (`statistics.dfy`): sum, mean and population variance of a window.
- `RealArith` (`arith.dfy`): facts about products of reals used by the proofs.
- `Threshold` (`threshold.dfy`): the anomaly rule.
- `Mstd` (`mstd.dfy`): the detector state and its two operations.
- `Stream` (`stream.dfy`): whole runs and the reference description.
- `Scenarios` (`scenarios.dfy`): two worked examples with the default configuration.

## Model

| member | source | states |
|---|---|---|
| `Mstd.New` | efficient-data-stream-anomaly-detection.py:64-75 | A new detector has empty sample, MA, MSTD and anomaly lists, keeps the given window size and threshold (3 and 1.2 when omitted), and satisfies the state invariant. |
| `Mstd.Ingest` | efficient-data-stream-anomaly-detection.py:93-101 | Appends exactly the given sample to the history and leaves the anomaly log and configuration alone. Before a full window exists, nothing else changes. After that, exactly one MA and one variance are appended: the mean and population variance of the trailing window. Earlier entries are kept unchanged. The invariant is preserved. |
| `Mstd.IngestDependsOnlyOnWindow` | efficient-data-stream-anomaly-detection.py:95-97 | The new MA and variance depend only on the last `window_size` samples. Two histories that end alike give the same statistics. |
| `Mstd.FindAnomaly` | efficient-data-stream-anomaly-detection.py:104-114 | During warm-up (no MA yet) the log is unchanged. Otherwise the log is either unchanged or grows by exactly the latest sample. It grows exactly when `abs(latest - MA) > threshold * s` for the standard deviation `s` of the latest window. Samples, statistics and configuration are untouched. |
| `WindowStats.Trailing` | efficient-data-stream-anomaly-detection.py:95 | The current window is the last `window_size` samples, in order: element `k` is sample `len - window_size + k`. |
| `WindowStats.Mean` | efficient-data-stream-anomaly-detection.py:96 | The window average times the window length is the sum of the window. |
| `WindowStats.Variance` | efficient-data-stream-anomaly-detection.py:97-98 | The population variance of a window is never negative, so the square root taken at line 98 exists. |
| `WindowStats.WindowStatistics` | efficient-data-stream-anomaly-detection.py:95-97 | Computing the mean from a running sum, and then the mean of squared deviations, in two loops gives exactly the window's mean and population variance. |
| `WindowStats.ConstantWindow` | efficient-data-stream-anomaly-detection.py:96-97 | A window whose values all equal `c` has mean `c` and variance 0. |
| `WindowStats.VarianceZeroIffConstant` | efficient-data-stream-anomaly-detection.py:96-97 | The window variance is zero exactly when all values in the window are equal, in both directions. |
| `WindowStats.MeanBetween` | efficient-data-stream-anomaly-detection.py:96 | The moving average lies between any lower and upper bound of the window's values. |
| `Threshold.Exceeds` | efficient-data-stream-anomaly-detection.py:98-110 | A deviation is anomalous exactly when `abs(dev) > threshold * s` for the standard deviation `s`, the non-negative root of the variance, for every real threshold. |
| `Threshold.SquaredDecisionIffAboveScaledRoot` | efficient-data-stream-anomaly-detection.py:98-110 | The square-root-free decision agrees with `abs(dev) > threshold * s` for every non-negative `s` whose square is the variance, whatever the sign of the threshold. |
| `Threshold.ExceedsAntitoneInThreshold` | efficient-data-stream-anomaly-detection.py:110 | A deviation flagged under threshold `t2` is also flagged under every `t1 <= t2`. |
| `Threshold.ZeroVarianceFlagsAnyDeviation` | efficient-data-stream-anomaly-detection.py:110 | With MSTD 0, a sample is flagged exactly when it differs from the MA, whatever the threshold. |
| `Threshold.ZeroDeviationNeverExceeds` | efficient-data-stream-anomaly-detection.py:110 | With a non-negative threshold, a zero deviation is never flagged, because the comparison is strict. |
| `Stream.Step` | efficient-data-stream-anomaly-detection.py:126 | One tick, ingest followed by check, appends the sample to the history, keeps the configuration and preserves the invariant. |
| `Stream.Run` | efficient-data-stream-anomaly-detection.py:93-114 | After a fresh start and one tick per sample, the history is exactly the stream and the invariant holds. |
| `Stream.RunStatistics` | efficient-data-stream-anomaly-detection.py:94-101 | After a run, MA and variance lists have equal length `max(0, n - window_size + 1)`. They are non-empty exactly when at least a window of samples arrived. Entry `i` is the mean (variance) of samples `i .. i + window_size - 1`. |
| `Stream.RunMatchesReference` | efficient-data-stream-anomaly-detection.py:104-111 | The anomaly log of a run is exactly the list of samples whose trailing window flags them, in arrival order. |
| `Stream.NoAnomaliesDuringWarmUp` | efficient-data-stream-anomaly-detection.py:94-106 | While fewer than `window_size` samples have arrived, there is no MA and nothing is logged. |
| `Stream.ConstantStreamNeverFlags` | efficient-data-stream-anomaly-detection.py:96-110 | Over exact reals, a stream of one repeated value never logs an anomaly, for any window size and threshold. |
| `Stream.WindowSizeOneNeverFlags` | efficient-data-stream-anomaly-detection.py:94-110 | With window size 1, each window holds only the sample itself, so nothing is ever logged. |
| `Stream.SampleAtAverageNotFlagged` | efficient-data-stream-anomaly-detection.py:110 | With a non-negative threshold, a sample equal to the MA of its own window is not logged. |
| `Stream.ThresholdMonotonicity` | efficient-data-stream-anomaly-detection.py:110 | For the same stream, the log under a higher threshold is a subsequence of the log under a lower one, and so is never longer. |
| `Scenarios.SpikeIsFlagged` | efficient-data-stream-anomaly-detection.py:93-111 | Window 3, threshold 1.2, samples 10, 10, 10, 50: the MAs are 10 and 70/3, the variances are 0 and 3200/9, and the log is [50]. |
| `Scenarios.FlatStreamIsQuiet` | efficient-data-stream-anomaly-detection.py:93-111 | Window 3, threshold 1.2, five samples of 5: every MA is 5, every variance is 0, and nothing is logged. |

## Left out

- `DataStream.generate` (lines 13-48) is not part of this model. It draws from `random.gauss`, reads `time.time()` and uses `math.sin`. The model takes any sequence of samples instead.
- The `__main__` loop (lines 117-142) is not part of this model. It plots with matplotlib, pauses, prints, and colours points. Only its chained call at line 126 is modelled, as `Stream.Step`.
- The `isinstance` checks and their `TypeError`s (lines 65-68, 90-91) are left out. Dafny's types make them vacuous.
- `Mstd.FindAnomaly` has no error path for the `try`/`except` at lines 108-113. The model assumes that `moving_average_and_moving_standard_deviation` never raises once it has appended the sample. Under that assumption, and for `window_size >= 1`, every state satisfies `Mstd.Valid`: at least one sample exists and the list indices are valid. The branch is then unreachable only when no operand of line 110 overflows (see the next line).
- The `OverflowError` paths are left out. Python raises instead of returning infinity when line 96 divides a huge integer sample, when line 97 squares a huge deviation (samples 0.0 and 1e200 with window 2), when line 110 subtracts a float from a huge integer, and when line 110 multiplies a threshold integer beyond double range by the MSTD. Line 67 accepts any `int` threshold, so `MSTD(3, 10**400)` takes the `except` branch on every check after warm-up, from a state inside `Mstd.Valid`. For a positive threshold of that size the log still agrees with the model: by Samuelson's inequality no sample lies more than `sqrt(window_size - 1)` standard deviations from its window's mean, so such a threshold never flags in either; the model does not prove this bound. A negative integer threshold beyond double range, such as `MSTD(3, -10**400)`, diverges: Python never logs anything, while the model, whose comparison cannot fail, logs every sample whose deviation is non-zero or whose window has spread (samples 1, 2, 3 log 3). An error at line 96 or 97 leaves `_data` one sample ahead of `_ma` and `_mstd`. A caller that catches it, as the loop at line 141 does, then holds a state outside `Mstd.Valid`. The next `find_anomaly` call can then raise at line 110 and take the `except` branch. Over exact reals none of these operations fail.
- Floating point is left out. Sums, divisions and `math.sqrt` are exact over reals. NaN and infinities are not modelled.
- `Mstd.Ingest` requires `window_size >= 1`, and so do `Mstd.New` and `Stream.Run`. The code only checks the type at line 65. With 0, line 96 raises `ZeroDivisionError` after the sample has been appended. A negative size slices the history from the front and divides by a negative number. Neither case is a meaningful configuration, so neither is modelled.
- The `Self` return value at line 102 is left out. `find_anomaly` returns its list at line 114; the model exposes the same list as the `anomalies` field of the resulting state.

=== FILE: arith.dfy ===
/**
 * Facts about products of reals that the solver does not find on its own,
 * shared by the statistics and the anomaly rule.
 */
module RealArith {

  lemma ProductPositive(a: real, b: real)
    requires a > 0.0 && b > 0.0
    ensures a * b > 0.0
  {
  }

  lemma ProductNonNegative(a: real, b: real)
    requires a >= 0.0 && b >= 0.0
    ensures a * b >= 0.0
  {
  }

  /**
   * The product of a number with itself is non-negative, and positive unless
   * the number is zero. Stated for two equal factors, and not for `a * a`, so
   * that callers can pass the deviation expression that appears in the sums:
   * the call then puts that exact product term in front of the solver, which
   * does not find these nonlinear facts about it on its own.
   */
  lemma SelfProductSign(a: real, b: real)
    requires a == b
    ensures a * b >= 0.0
    ensures a != 0.0 ==> a * b > 0.0
  {
  }

  /** Only zero times itself gives zero. */
  lemma SelfProductZero(a: real, b: real)
    requires a == b
    requires a * b == 0.0
    ensures a == 0.0
  {
    SelfProductSign(a, b);
  }

  /** Squaring is strictly monotone on the non-negative reals. */
  lemma SquareStrictlyMonotone(a: real, b: real)
    requires a >= 0.0 && b >= 0.0
    ensures a > b <==> a * a > b * b
  {
    if a > b {
      ProductPositive(a - b, a + b);
      assert (a - b) * (a + b) == a * a - b * b;
    } else {
      ProductNonNegative(b - a, b + a);
      assert (b - a) * (b + a) == b * b - a * a;
    }
  }
}

=== FILE: mstd.dfy ===
/**
 * The MSTD detector: a growing history of samples, the moving average (MA)
 * and moving variance of every full window seen so far, and the log of the
 * samples found anomalous.
 *
 * The object is modelled as an immutable state record; ingesting a sample and
 * checking for an anomaly are pure transitions from one state to the next.
 */
module Mstd {
  import opened WindowStats
  import opened Threshold

  /**
   * The state of one MSTD object. `variance[i]` is the square of the moving
   * standard deviation the object keeps in its MSTD list: the model records
   * the variance, from which the standard deviation is the non-negative root.
   */
  datatype State = State(
    data: seq<real>,
    ma: seq<real>,
    variance: seq<real>,
    anomalies: seq<real>,
    windowSize: int,
    threshold: real)

  /** Number of full windows among the first `n` samples. */
  function WindowCount(n: int, windowSize: int): int
  {
    if n >= windowSize then n - windowSize + 1 else 0
  }

  /** The window whose statistics are the `i`-th entries of the MA and variance lists. */
  function WindowAt(data: seq<real>, windowSize: int, i: int): seq<real>
    requires 1 <= windowSize && 0 <= i && i + windowSize <= |data|
  {
    data[i..i + windowSize]
  }

  /**
   * The invariant every reachable state keeps: one statistic per full window,
   * in arrival order, each the exact mean and population variance of that window.
   */
  ghost predicate Valid(st: State)
  {
    && st.windowSize >= 1
    && |st.ma| == WindowCount(|st.data|, st.windowSize)
    && |st.variance| == |st.ma|
    && (forall i :: 0 <= i < |st.ma| ==>
          st.ma[i] == Mean(WindowAt(st.data, st.windowSize, i)))
    && (forall i :: 0 <= i < |st.variance| ==>
          st.variance[i] == Variance(WindowAt(st.data, st.windowSize, i)))
  }

  /**
   * A fresh detector: every list empty, the configuration recorded. Like
   * `MSTD()`, it defaults to a window of 3 samples and a threshold of 1.2.
   */
  function New(windowSize: int := 3, threshold: real := 1.2): (st: State)
    requires windowSize >= 1
    ensures Valid(st)
    ensures st.data == [] && st.ma == [] && st.variance == [] && st.anomalies == []
    ensures st.windowSize == windowSize && st.threshold == threshold
  {
    State([], [], [], [], windowSize, threshold)
  }

  /**
   * Appends a sample and, once at least a window of samples exists, the mean
   * and variance of the trailing window.
   */
  function Ingest(st: State, value: real): (r: State)
    requires st.windowSize >= 1
    ensures r.data == st.data + [value]
    ensures r.anomalies == st.anomalies
    ensures r.windowSize == st.windowSize && r.threshold == st.threshold
    ensures |r.data| < st.windowSize ==> r.ma == st.ma && r.variance == st.variance
    ensures |r.data| >= st.windowSize ==>
              && |r.ma| == |st.ma| + 1 && r.ma[..|st.ma|] == st.ma
              && |r.variance| == |st.variance| + 1 && r.variance[..|st.variance|] == st.variance
              && r.ma[|st.ma|] == Mean(Trailing(r.data, st.windowSize))
              && r.variance[|st.variance|] == Variance(Trailing(r.data, st.windowSize))
    ensures Valid(st) ==> Valid(r)
  {
    var data := st.data + [value];
    if |data| >= st.windowSize then
      var window := Trailing(data, st.windowSize);
      var r := st.(data := data, ma := st.ma + [Mean(window)], variance := st.variance + [Variance(window)]);
      IngestKeepsValid(st, r, value);
      r
    else
      st.(data := data)
  }

  /** The invariant survives `Ingest`: old windows are untouched, the new one is the trailing one. */
  lemma IngestKeepsValid(st: State, r: State, value: real)
    requires st.windowSize >= 1
    requires r.data == st.data + [value]
    requires r.windowSize == st.windowSize
    requires |r.data| >= st.windowSize
    requires r.ma == st.ma + [Mean(Trailing(r.data, st.windowSize))]
    requires r.variance == st.variance + [Variance(Trailing(r.data, st.windowSize))]
    ensures Valid(st) ==> Valid(r)
  {
    if Valid(st) {
      var w := st.windowSize;
      EarlierWindowsKept(st.data, value, w, |st.ma|);
      assert WindowAt(r.data, w, |st.ma|) == Trailing(r.data, w);
    }
  }

  /** Appending a sample leaves every earlier window as it was. */
  lemma EarlierWindowsKept(data: seq<real>, value: real, windowSize: int, count: int)
    requires windowSize >= 1 && 0 <= count && count + windowSize <= |data| + 1
    ensures forall i :: 0 <= i < count && i + windowSize <= |data| ==>
              WindowAt(data + [value], windowSize, i) == WindowAt(data, windowSize, i)
  {
  }

  /**
   * Checks the latest sample against the latest statistic and logs it when it
   * lies further than `threshold` standard deviations from the moving average.
   * During warm-up, before any statistic exists, nothing happens.
   */
  function FindAnomaly(st: State): (r: State)
    requires Valid(st)
    ensures Valid(r)
    ensures r.data == st.data && r.ma == st.ma && r.variance == st.variance
    ensures r.windowSize == st.windowSize && r.threshold == st.threshold
    ensures |st.ma| == 0 ==> r.anomalies == st.anomalies
    ensures r.anomalies == st.anomalies
         || (|st.data| > 0 && r.anomalies == st.anomalies + [st.data[|st.data| - 1]])
    ensures |st.ma| > 0 ==>
              var dev := st.data[|st.data| - 1] - st.ma[|st.ma| - 1];
              forall s {:trigger IsRoot(s, st.variance[|st.variance| - 1])} ::
                IsRoot(s, st.variance[|st.variance| - 1]) ==>
                  ((|r.anomalies| > |st.anomalies|) <==> Abs(dev) > st.threshold * s)
  {
    if |st.ma| >= 1 then
      var index := |st.ma| - 1;
      var latest := st.data[|st.data| - 1];
      var flagged := Exceeds(latest - st.ma[index], st.threshold, st.variance[index]);
      if flagged then st.(anomalies := st.anomalies + [latest]) else st
    else
      st
  }

  /**
   * The statistic appended by `Ingest` depends on the last `windowSize`
   * samples only: two histories that end alike give the same MA and variance.
   */
  lemma IngestDependsOnlyOnWindow(a: State, b: State, value: real)
    requires a.windowSize == b.windowSize >= 1
    requires |a.data| + 1 >= a.windowSize && |b.data| + 1 >= b.windowSize
    requires a.data[|a.data| + 1 - a.windowSize..] == b.data[|b.data| + 1 - b.windowSize..]
    ensures Ingest(a, value).ma[|a.ma|] == Ingest(b, value).ma[|b.ma|]
    ensures Ingest(a, value).variance[|a.variance|] == Ingest(b, value).variance[|b.variance|]
  {
    var w := a.windowSize;
    var da := a.data + [value];
    var db := b.data + [value];
    assert Trailing(da, w) == a.data[|a.data| + 1 - w..] + [value];
    assert Trailing(db, w) == b.data[|b.data| + 1 - w..] + [value];
    assert Trailing(da, w) == Trailing(db, w);
    assert Ingest(a, value).data == da && Ingest(b, value).data == db;
  }
}

=== FILE: scenarios.dfy ===
/**
 * Two concrete runs of the detector with its default configuration
 * (window of 3 samples, threshold 1.2), worked out over exact reals.
 */
module Scenarios {
  import opened WindowStats
  import opened Stream

  /** The statistics of the window [10, 10, 50]. */
  lemma SpikeWindowStatistics()
    ensures Mean([10.0, 10.0, 50.0]) == 70.0 / 3.0
    ensures Variance([10.0, 10.0, 50.0]) == 3200.0 / 9.0
  {
    var spike := [10.0, 10.0, 50.0];
    var m := 70.0 / 3.0;
    assert spike[..2] == [10.0, 10.0];
    assert spike[..2][..1] == [10.0];
    assert [10.0][..0] == [];
    assert Sum([10.0]) == 10.0;
    assert Sum([10.0, 10.0]) == 20.0;
    assert Sum(spike) == 70.0;
    assert SumSquaredDeviations([10.0], m) == 1600.0 / 9.0;
    assert SumSquaredDeviations([10.0, 10.0], m) == 3200.0 / 9.0;
    assert SumSquaredDeviations(spike, m) == 3200.0 / 3.0;
  }

  /** Of the stream [10, 10, 10, 50] only the last sample is flagged. */
  lemma SpikeReference(s: seq<real>)
    requires s == [10.0, 10.0, 10.0, 50.0]
    ensures AnomaliesAmong(s, 3, 1.2, 4) == [50.0]
  {
    assert s[0..3] == [10.0, 10.0, 10.0];
    assert s[1..4] == [10.0, 10.0, 50.0];
    ConstantWindow(s[0..3], 10.0);
    SpikeWindowStatistics();
    assert (50.0 - 70.0 / 3.0) * (50.0 - 70.0 / 3.0) == 6400.0 / 9.0;
    assert FlaggedAt(s, 3, 1.2, 3);
    assert !FlaggedAt(s, 3, 1.2, 2);
    assert !FlaggedAt(s, 3, 1.2, 0) && !FlaggedAt(s, 3, 1.2, 1);
    assert AnomaliesAmong(s, 3, 1.2, 1) == AnomaliesAmong(s, 3, 1.2, 0) == [];
    assert AnomaliesAmong(s, 3, 1.2, 2) == [];
    assert AnomaliesAmong(s, 3, 1.2, 3) == [];
  }

  /**
   * A spike after a flat start: the window [10, 10, 50] has mean 70/3 and
   * variance 3200/9; the spike deviates by 80/3, whose square 6400/9 exceeds
   * 1.2^2 * 3200/9 = 512, so 50 is logged.
   */
  lemma SpikeIsFlagged(s: seq<real>)
    requires s == [10.0, 10.0, 10.0, 50.0]
    ensures Run(3, 1.2, s).anomalies == [50.0]
    ensures Run(3, 1.2, s).ma == [10.0, 70.0 / 3.0]
    ensures Run(3, 1.2, s).variance == [0.0, 3200.0 / 9.0]
  {
    assert s[0..3] == [10.0, 10.0, 10.0];
    assert s[1..4] == [10.0, 10.0, 50.0];
    ConstantWindow(s[0..3], 10.0);
    SpikeWindowStatistics();
    SpikeReference(s);
    RunMatchesReference(3, 1.2, s);
    RunStatistics(3, 1.2, s);
  }

  /** A flat stream: every statistic is mean 5, variance 0, and nothing is logged. */
  lemma FlatStreamIsQuiet(s: seq<real>)
    requires s == [5.0, 5.0, 5.0, 5.0, 5.0]
    ensures Run(3, 1.2, s).anomalies == []
    ensures Run(3, 1.2, s).ma == [5.0, 5.0, 5.0]
    ensures Run(3, 1.2, s).variance == [0.0, 0.0, 0.0]
  {
    ConstantStreamNeverFlags(3, 1.2, s);
    RunStatistics(3, 1.2, s);
    ConstantWindow(s[0..3], 5.0);
    ConstantWindow(s[1..4], 5.0);
    ConstantWindow(s[2..5], 5.0);
  }
}

=== FILE: statistics.dfy ===
/**
 * Window statistics of the MSTD detector: the arithmetic mean and the
 * population variance of a window of samples, over exact reals.
 *
 * Sums are left folds, so they add the elements in the order Python's
 * built-in `sum` does.
 */
module WindowStats {
  import opened RealArith

  /** Sum of the elements, added from the first to the last. */
  function Sum(s: seq<real>): real
  {
    if |s| == 0 then 0.0 else Sum(s[..|s| - 1]) + s[|s| - 1]
  }

  /** Sum of the squared deviations of the elements from `m`. */
  function SumSquaredDeviations(s: seq<real>, m: real): real
  {
    if |s| == 0 then 0.0
    else SumSquaredDeviations(s[..|s| - 1], m) + (s[|s| - 1] - m) * (s[|s| - 1] - m)
  }

  /** Arithmetic mean of a non-empty window. */
  function Mean(w: seq<real>): (m: real)
    requires |w| > 0
    ensures (|w| as real) * m == Sum(w)
  {
    Sum(w) / (|w| as real)
  }

  /**
   * Population variance of a non-empty window: divides by the window length.
   * It is never negative, so its square root, the MSTD, exists.
   */
  function Variance(w: seq<real>): (v: real)
    requires |w| > 0
    ensures v >= 0.0
  {
    SumSquaredDeviationsNonNegative(w, Mean(w));
    SumSquaredDeviations(w, Mean(w)) / (|w| as real)
  }

  /** All elements of the window are equal. */
  predicate Constant(w: seq<real>)
  {
    forall i, j :: 0 <= i < |w| && 0 <= j < |w| ==> w[i] == w[j]
  }

  /** The trailing `size` elements of `data` (Python's `data[-size:]`). */
  function Trailing(data: seq<real>, size: int): (w: seq<real>)
    requires 1 <= size <= |data|
    ensures |w| == size
    ensures forall k :: 0 <= k < size ==> w[k] == data[|data| - size + k]
  {
    data[|data| - size..]
  }

  lemma {:induction false} SumSquaredDeviationsNonNegative(s: seq<real>, m: real)
    ensures SumSquaredDeviations(s, m) >= 0.0
  {
    if |s| > 0 {
      SumSquaredDeviationsNonNegative(s[..|s| - 1], m);
      SelfProductSign(s[|s| - 1] - m, s[|s| - 1] - m);
    }
  }

  /** The sum of the squared deviations is zero exactly when every element equals `m`. */
  lemma {:induction false} SumSquaredDeviationsZeroIff(s: seq<real>, m: real)
    ensures SumSquaredDeviations(s, m) == 0.0 <==> forall i :: 0 <= i < |s| ==> s[i] == m
  {
    if |s| > 0 {
      var p := s[..|s| - 1];
      SumSquaredDeviationsZeroIff(p, m);
      SumSquaredDeviationsNonNegative(p, m);
      SelfProductSign(s[|s| - 1] - m, s[|s| - 1] - m);
      assert forall i :: 0 <= i < |p| ==> p[i] == s[i];
      assert SumSquaredDeviations(s, m)
          == SumSquaredDeviations(p, m) + (s[|s| - 1] - m) * (s[|s| - 1] - m);
      if SumSquaredDeviations(s, m) == 0.0 {
        assert (s[|s| - 1] - m) * (s[|s| - 1] - m) == 0.0;
        SelfProductZero(s[|s| - 1] - m, s[|s| - 1] - m);
        forall i | 0 <= i < |s|
          ensures s[i] == m
        {
          if i < |p| {
            assert s[i] == p[i];
          }
        }
      }
    }
  }

  /** The sum of `|s|` copies of `c`. */
  lemma {:induction false} SumOfConstant(s: seq<real>, c: real)
    requires forall i :: 0 <= i < |s| ==> s[i] == c
    ensures Sum(s) == (|s| as real) * c
  {
    if |s| > 0 {
      SumOfConstant(s[..|s| - 1], c);
    }
  }

  /** Bounds on every element bound the sum. */
  lemma {:induction false} SumBetween(s: seq<real>, lo: real, hi: real)
    requires forall i :: 0 <= i < |s| ==> lo <= s[i] <= hi
    ensures (|s| as real) * lo <= Sum(s) <= (|s| as real) * hi
  {
    if |s| > 0 {
      SumBetween(s[..|s| - 1], lo, hi);
    }
  }

  /** The mean lies between any lower and upper bound of the window's values. */
  lemma MeanBetween(w: seq<real>, lo: real, hi: real)
    requires |w| > 0
    requires forall i :: 0 <= i < |w| ==> lo <= w[i] <= hi
    ensures lo <= Mean(w) <= hi
  {
    SumBetween(w, lo, hi);
    var n := |w| as real;
    assert Mean(w) * n == Sum(w);
  }

  /** A window whose values are all `c` has mean `c` and variance 0. */
  lemma ConstantWindow(w: seq<real>, c: real)
    requires |w| > 0
    requires forall i :: 0 <= i < |w| ==> w[i] == c
    ensures Mean(w) == c
    ensures Variance(w) == 0.0
  {
    SumOfConstant(w, c);
    SumSquaredDeviationsZeroIff(w, c);
  }

  /** The variance is zero exactly when all values in the window are equal. */
  lemma VarianceZeroIffConstant(w: seq<real>)
    requires |w| > 0
    ensures Variance(w) == 0.0 <==> Constant(w)
  {
    SumSquaredDeviationsZeroIff(w, Mean(w));
    if Constant(w) {
      ConstantWindow(w, w[0]);
    }
  }

  /**
   * Computes the two statistics of one window as
   * `moving_average_and_moving_standard_deviation` does: first the mean from
   * the sum, then the mean of the squared deviations.
   */
  method WindowStatistics(w: seq<real>) returns (mean: real, variance: real)
    requires |w| > 0
    ensures mean == Mean(w)
    ensures variance == Variance(w)
    ensures variance >= 0.0
  {
    var total := 0.0;
    var i := 0;
    while i < |w|
      invariant 0 <= i <= |w|
      invariant total == Sum(w[..i])
    {
      assert w[..i + 1][..i] == w[..i];
      total := total + w[i];
      i := i + 1;
    }
    assert w[..|w|] == w;
    mean := total / (|w| as real);

    var squares := 0.0;
    i := 0;
    while i < |w|
      invariant 0 <= i <= |w|
      invariant squares == SumSquaredDeviations(w[..i], mean)
    {
      assert w[..i + 1][..i] == w[..i];
      squares := squares + (w[i] - mean) * (w[i] - mean);
      i := i + 1;
    }
    variance := squares / (|w| as real);
  }
}

=== FILE: stream.dfy ===
/**
 * A detector fed a whole stream of samples, one tick at a time: each tick
 * ingests the sample and then checks it, as the chained call
 * `moving_average_and_moving_standard_deviation(value).find_anomaly()` does.
 *
 * `AnomaliesAmong` is an independent description of the outcome, position by
 * position, against which the detector is proved correct.
 */
module Stream {
  import opened WindowStats
  import opened Threshold
  import opened Mstd

  /** One tick: ingest the sample, then check it. */
  function Step(st: State, value: real): (r: State)
    requires Valid(st)
    ensures Valid(r)
    ensures r.data == st.data + [value]
    ensures r.windowSize == st.windowSize && r.threshold == st.threshold
  {
    FindAnomaly(Ingest(st, value))
  }

  /** The detector after a fresh start and one tick per sample. */
  function Run(windowSize: int, threshold: real, samples: seq<real>): (r: State)
    requires windowSize >= 1
    ensures Valid(r)
    ensures r.data == samples
    ensures r.windowSize == windowSize && r.threshold == threshold
    decreases |samples|
  {
    if |samples| == 0 then New(windowSize, threshold)
    else
      var earlier := samples[..|samples| - 1];
      var latest := samples[|samples| - 1];
      assert earlier + [latest] == samples;
      Step(Run(windowSize, threshold, earlier), latest)
  }

  /**
   * Sample `i` of the stream is anomalous: a full window ends at it, and the
   * sample lies further from that window's mean than `threshold` standard
   * deviations of the same window.
   */
  predicate FlaggedAt(samples: seq<real>, windowSize: int, threshold: real, i: int)
    requires windowSize >= 1 && 0 <= i < |samples|
  {
    && i + 1 >= windowSize
    && var w := samples[i + 1 - windowSize..i + 1];
       Exceeds(samples[i] - Mean(w), threshold, Variance(w))
  }

  /** The flagged samples among the first `n`, in arrival order. */
  function AnomaliesAmong(samples: seq<real>, windowSize: int, threshold: real, n: int): seq<real>
    requires windowSize >= 1 && 0 <= n <= |samples|
  {
    if n == 0 then []
    else
      AnomaliesAmong(samples, windowSize, threshold, n - 1)
      + (if FlaggedAt(samples, windowSize, threshold, n - 1) then [samples[n - 1]] else [])
  }

  /**
   * After the first `n` samples the anomaly log holds exactly the flagged
   * samples among them, in the order they arrived.
   */
  lemma {:induction false} RunPrefixMatchesReference(
    windowSize: int, threshold: real, samples: seq<real>, n: int)
    requires windowSize >= 1 && 0 <= n <= |samples|
    ensures Run(windowSize, threshold, samples[..n]).anomalies
         == AnomaliesAmong(samples, windowSize, threshold, n)
  {
    if n > 0 {
      var p := samples[..n];
      assert p[..n - 1] == samples[..n - 1];
      RunPrefixMatchesReference(windowSize, threshold, samples, n - 1);
      var before := Run(windowSize, threshold, samples[..n - 1]);
      assert Run(windowSize, threshold, p) == Step(before, samples[n - 1]);
      StepLogsFlaggedSample(samples, windowSize, threshold, n, before);
    }
  }

  /** One tick appends the `n`-th sample to the log exactly when it is flagged. */
  lemma StepLogsFlaggedSample(
    samples: seq<real>, windowSize: int, threshold: real, n: int, before: State)
    requires windowSize >= 1 && 0 < n <= |samples|
    requires Valid(before)
    requires before.data == samples[..n - 1]
    requires before.windowSize == windowSize && before.threshold == threshold
    ensures Step(before, samples[n - 1]).anomalies
         == before.anomalies
            + (if FlaggedAt(samples, windowSize, threshold, n - 1) then [samples[n - 1]] else [])
  {
    var x := samples[n - 1];
    var mid := Ingest(before, x);
    assert Step(before, x) == FindAnomaly(mid);
    if n >= windowSize {
      StepAfterWarmUp(samples, windowSize, threshold, n, before);
    } else {
      assert |mid.ma| == 0;
    }
  }

  /** `StepLogsFlaggedSample` once the `n`-th sample completes a window. */
  lemma StepAfterWarmUp(
    samples: seq<real>, windowSize: int, threshold: real, n: int, before: State)
    requires windowSize >= 1 && windowSize <= n <= |samples|
    requires Valid(before)
    requires before.data == samples[..n - 1]
    requires before.windowSize == windowSize && before.threshold == threshold
    ensures FindAnomaly(Ingest(before, samples[n - 1])).anomalies
         == before.anomalies
            + (if FlaggedAt(samples, windowSize, threshold, n - 1) then [samples[n - 1]] else [])
  {
    var x := samples[n - 1];
    var w := samples[n - windowSize..n];
    var mid := Ingest(before, x);
    IngestAtTick(samples, n, before);
    var flagged := Exceeds(x - Mean(w), threshold, Variance(w));
    assert FlaggedAt(samples, windowSize, threshold, n - 1) == flagged;
    LatestCheck(mid, x, w);
    assert FindAnomaly(mid).anomalies == before.anomalies + (if flagged then [x] else []);
  }

  /** Ingesting the `n`-th sample appends the statistics of the window ending at it. */
  lemma IngestAtTick(samples: seq<real>, n: int, before: State)
    requires Valid(before) && 0 < n <= |samples| && n >= before.windowSize
    requires before.data == samples[..n - 1]
    ensures var mid := Ingest(before, samples[n - 1]);
      && Valid(mid)
      && |mid.ma| == |before.ma| + 1 && |mid.variance| == |before.variance| + 1
      && mid.data[|mid.data| - 1] == samples[n - 1]
      && mid.ma[|before.ma|] == Mean(samples[n - before.windowSize..n])
      && mid.variance[|before.variance|] == Variance(samples[n - before.windowSize..n])
  {
    var mid := Ingest(before, samples[n - 1]);
    assert mid.data == samples[..n];
    assert Trailing(mid.data, before.windowSize) == samples[n - before.windowSize..n];
  }

  /** `FindAnomaly` logs the latest sample exactly when it exceeds the latest window's bound. */
  lemma LatestCheck(st: State, x: real, w: seq<real>)
    requires Valid(st) && |st.ma| > 0 && |w| > 0
    requires st.data[|st.data| - 1] == x
    requires st.ma[|st.ma| - 1] == Mean(w) && st.variance[|st.variance| - 1] == Variance(w)
    ensures FindAnomaly(st).anomalies
         == st.anomalies + (if Exceeds(x - Mean(w), st.threshold, Variance(w)) then [x] else [])
  {
  }

  /** The anomaly log of a whole run is the reference list of flagged samples. */
  lemma RunMatchesReference(windowSize: int, threshold: real, samples: seq<real>)
    requires windowSize >= 1
    ensures Run(windowSize, threshold, samples).anomalies
         == AnomaliesAmong(samples, windowSize, threshold, |samples|)
  {
    RunPrefixMatchesReference(windowSize, threshold, samples, |samples|);
    assert samples[..|samples|] == samples;
  }

  /**
   * The statistic history after a run: none during warm-up, then one entry per
   * full window, each the exact mean and variance of that window of samples.
   */
  lemma RunStatistics(windowSize: int, threshold: real, samples: seq<real>)
    requires windowSize >= 1
    ensures var r := Run(windowSize, threshold, samples);
      && (|r.ma| > 0 <==> |samples| >= windowSize)
      && |r.ma| == |r.variance| == WindowCount(|samples|, windowSize)
      && (forall i :: 0 <= i < |r.ma| ==> r.ma[i] == Mean(samples[i..i + windowSize]))
      && (forall i :: 0 <= i < |r.variance| ==> r.variance[i] == Variance(samples[i..i + windowSize]))
  {
  }

  /** Nothing is ever flagged before the first window fills. */
  lemma {:induction false} NoAnomaliesDuringWarmUp(windowSize: int, threshold: real, samples: seq<real>)
    requires windowSize >= 1
    requires |samples| < windowSize
    ensures Run(windowSize, threshold, samples).anomalies == []
    ensures Run(windowSize, threshold, samples).ma == []
  {
    if |samples| > 0 {
      NoAnomaliesDuringWarmUp(windowSize, threshold, samples[..|samples| - 1]);
    }
  }

  /** If no position is flagged, the reference list is empty. */
  lemma {:induction false} NoFlagsNoAnomalies(samples: seq<real>, windowSize: int, threshold: real, n: int)
    requires windowSize >= 1 && 0 <= n <= |samples|
    requires forall i :: 0 <= i < n ==> !FlaggedAt(samples, windowSize, threshold, i)
    ensures AnomaliesAmong(samples, windowSize, threshold, n) == []
  {
    if n > 0 {
      NoFlagsNoAnomalies(samples, windowSize, threshold, n - 1);
    }
  }

  /** A window of equal values never flags the sample it ends at, whatever the threshold. */
  lemma ConstantWindowNeverFlags(samples: seq<real>, windowSize: int, threshold: real, i: int)
    requires windowSize >= 1 && 0 <= i < |samples| && i + 1 >= windowSize
    requires Constant(samples[i + 1 - windowSize..i + 1])
    ensures !FlaggedAt(samples, windowSize, threshold, i)
  {
    var w := samples[i + 1 - windowSize..i + 1];
    ConstantWindow(w, samples[i]);
    ZeroVarianceFlagsAnyDeviation(samples[i] - Mean(w), threshold);
  }

  /** A stream of one repeated value never raises an anomaly. */
  lemma ConstantStreamNeverFlags(windowSize: int, threshold: real, samples: seq<real>)
    requires windowSize >= 1
    requires Constant(samples)
    ensures Run(windowSize, threshold, samples).anomalies == []
  {
    forall i | 0 <= i < |samples|
      ensures !FlaggedAt(samples, windowSize, threshold, i)
    {
      if i + 1 >= windowSize {
        ConstantWindowNeverFlags(samples, windowSize, threshold, i);
      }
    }
    NoFlagsNoAnomalies(samples, windowSize, threshold, |samples|);
    RunMatchesReference(windowSize, threshold, samples);
  }

  /**
   * With a window of one sample, the window's mean is the sample itself, so
   * nothing is ever flagged.
   */
  lemma WindowSizeOneNeverFlags(threshold: real, samples: seq<real>)
    ensures Run(1, threshold, samples).anomalies == []
  {
    forall i | 0 <= i < |samples|
      ensures !FlaggedAt(samples, 1, threshold, i)
    {
      ConstantWindowNeverFlags(samples, 1, threshold, i);
    }
    NoFlagsNoAnomalies(samples, 1, threshold, |samples|);
    RunMatchesReference(1, threshold, samples);
  }

  /** With a non-negative threshold, a sample equal to the current MA is not logged. */
  lemma SampleAtAverageNotFlagged(st: State, value: real)
    requires Valid(st)
    requires st.threshold >= 0.0
    requires |st.data| + 1 >= st.windowSize
    requires value == Mean(Trailing(st.data + [value], st.windowSize))
    ensures Step(st, value).anomalies == st.anomalies
  {
    var mid := Ingest(st, value);
    ZeroDeviationNeverExceeds(st.threshold, mid.variance[|mid.variance| - 1]);
  }

  /** `a` can be obtained from `b` by deleting elements. */
  predicate IsSubsequence(a: seq<real>, b: seq<real>)
    decreases |b|
  {
    if |a| == 0 then true
    else if |b| == 0 then false
    else if a[|a| - 1] == b[|b| - 1] then IsSubsequence(a[..|a| - 1], b[..|b| - 1])
    else IsSubsequence(a, b[..|b| - 1])
  }

  lemma {:induction false} SubsequenceDropLast(a: seq<real>, b: seq<real>)
    requires |a| > 0
    requires IsSubsequence(a, b)
    ensures IsSubsequence(a[..|a| - 1], b)
    decreases |b|, 0
  {
    var a' := a[..|a| - 1];
    if |a'| > 0 && |b| > 0 {
      if a[|a| - 1] == b[|b| - 1] {
        SubsequenceExtend(a', b[..|b| - 1], b[|b| - 1]);
        assert b[..|b| - 1] + [b[|b| - 1]] == b;
      } else {
        SubsequenceDropLast(a, b[..|b| - 1]);
        SubsequenceExtend(a', b[..|b| - 1], b[|b| - 1]);
        assert b[..|b| - 1] + [b[|b| - 1]] == b;
      }
    }
  }

  lemma {:induction false} SubsequenceExtend(a: seq<real>, b: seq<real>, y: real)
    requires IsSubsequence(a, b)
    ensures IsSubsequence(a, b + [y])
    decreases |b|, 1
  {
    var b' := b + [y];
    assert b'[..|b'| - 1] == b;
    if |a| > 0 && a[|a| - 1] == y {
      SubsequenceDropLast(a, b);
    }
  }

  lemma {:induction false} SubsequenceLength(a: seq<real>, b: seq<real>)
    requires IsSubsequence(a, b)
    ensures |a| <= |b|
    decreases |b|
  {
    if |a| > 0 && |b| > 0 {
      if a[|a| - 1] == b[|b| - 1] {
        SubsequenceLength(a[..|a| - 1], b[..|b| - 1]);
      } else {
        SubsequenceLength(a, b[..|b| - 1]);
      }
    }
  }

  /** A sample flagged under a threshold is flagged under every lower one. */
  lemma FlaggedAtAntitone(samples: seq<real>, windowSize: int, t1: real, t2: real, i: int)
    requires windowSize >= 1 && 0 <= i < |samples|
    requires t1 <= t2
    requires FlaggedAt(samples, windowSize, t2, i)
    ensures FlaggedAt(samples, windowSize, t1, i)
  {
    var w := samples[i + 1 - windowSize..i + 1];
    ExceedsAntitoneInThreshold(samples[i] - Mean(w), t1, t2, Variance(w));
  }

  lemma {:induction false} AnomaliesAmongAntitone(
    samples: seq<real>, windowSize: int, t1: real, t2: real, n: int)
    requires windowSize >= 1 && 0 <= n <= |samples|
    requires t1 <= t2
    ensures IsSubsequence(AnomaliesAmong(samples, windowSize, t2, n),
                          AnomaliesAmong(samples, windowSize, t1, n))
  {
    if n > 0 {
      AnomaliesAmongAntitone(samples, windowSize, t1, t2, n - 1);
      var f2 := FlaggedAt(samples, windowSize, t2, n - 1);
      var f1 := FlaggedAt(samples, windowSize, t1, n - 1);
      if f2 {
        FlaggedAtAntitone(samples, windowSize, t1, t2, n - 1);
      }
      SubsequenceAppend(AnomaliesAmong(samples, windowSize, t2, n - 1),
                        AnomaliesAmong(samples, windowSize, t1, n - 1), f2, f1, samples[n - 1]);
    }
  }

  /** Appending to both sides, or to the longer side only, keeps a subsequence. */
  lemma SubsequenceAppend(a: seq<real>, b: seq<real>, fa: bool, fb: bool, x: real)
    requires IsSubsequence(a, b)
    requires fa ==> fb
    ensures IsSubsequence(a + (if fa then [x] else []), b + (if fb then [x] else []))
  {
    if fa {
      assert (a + [x])[..|a|] == a;
      assert (b + [x])[..|b|] == b;
    } else if fb {
      SubsequenceExtend(a, b, x);
      assert a + [] == a;
    } else {
      assert a + [] == a;
      assert b + [] == b;
    }
  }

  /**
   * Raising the threshold only removes entries from the anomaly log: the log
   * under the higher threshold is a subsequence of the log under the lower
   * one, and so is never longer.
   */
  lemma ThresholdMonotonicity(windowSize: int, t1: real, t2: real, samples: seq<real>)
    requires windowSize >= 1
    requires t1 <= t2
    ensures IsSubsequence(Run(windowSize, t2, samples).anomalies, Run(windowSize, t1, samples).anomalies)
    ensures |Run(windowSize, t2, samples).anomalies| <= |Run(windowSize, t1, samples).anomalies|
  {
    RunMatchesReference(windowSize, t1, samples);
    RunMatchesReference(windowSize, t2, samples);
    AnomaliesAmongAntitone(samples, windowSize, t1, t2, |samples|);
    SubsequenceLength(Run(windowSize, t2, samples).anomalies, Run(windowSize, t1, samples).anomalies);
  }
}

=== FILE: threshold.dfy ===
/**
 * The anomaly rule of the MSTD detector: a sample is anomalous when its
 * distance from the moving average exceeds `threshold` times the moving
 * standard deviation, `abs(dev) > threshold * sqrt(variance)`.
 *
 * Exact reals have no square root, so the rule is decided from the variance
 * itself (`SquaredDecision`). `Exceeds` carries the proof that this decision
 * agrees with the comparison against every non-negative root of the variance,
 * for every real threshold, negative ones included.
 */
module Threshold {
  import opened RealArith

  function Abs(x: real): (r: real)
    ensures r >= 0.0
    ensures r == x || r == -x
  {
    if x < 0.0 then -x else x
  }

  /** `s` is the value `math.sqrt(v)` stands for: the non-negative root of `v`. */
  predicate IsRoot(s: real, v: real)
  {
    s >= 0.0 && s * s == v
  }

  /**
   * `abs(dev) > t * sqrt(v)`, decided without the root. For `t >= 0` both
   * sides are non-negative and may be squared; for `t < 0` the right side is
   * negative unless `v` is zero, in which case it is zero.
   */
  predicate SquaredDecision(dev: real, t: real, v: real)
  {
    if t >= 0.0 then dev * dev > t * t * v else dev != 0.0 || v > 0.0
  }

  /**
   * The squared decision agrees with the comparison `find_anomaly` makes
   * against the standard deviation, whatever the sign of the threshold.
   */
  lemma SquaredDecisionIffAboveScaledRoot(dev: real, t: real, v: real, s: real)
    requires IsRoot(s, v)
    ensures SquaredDecision(dev, t, v) <==> Abs(dev) > t * s
  {
    var a := Abs(dev);
    assert dev * dev == a * a;
    if t >= 0.0 {
      ProductNonNegative(t, s);
      var b := t * s;
      assert b * b == t * t * v;
      SquareStrictlyMonotone(a, b);
    } else if v > 0.0 {
      SquareStrictlyMonotone(s, 0.0);
      ProductPositive(-t, s);
      assert t * s < 0.0;
    } else {
      SelfProductZero(s, s);
      assert t * s == 0.0;
    }
  }

  /** `SquaredDecisionIffAboveScaledRoot` for every root at once. */
  lemma SquaredDecisionAtEveryRoot(dev: real, t: real, v: real)
    ensures forall s :: IsRoot(s, v) ==> (SquaredDecision(dev, t, v) <==> Abs(dev) > t * s)
  {
    forall s | IsRoot(s, v)
      ensures SquaredDecision(dev, t, v) <==> Abs(dev) > t * s
    {
      SquaredDecisionIffAboveScaledRoot(dev, t, v, s);
    }
  }

  /**
   * The anomaly rule: a deviation `dev` from the moving average is anomalous
   * exactly when `abs(dev) > t * s`, where `s` is the standard deviation, the
   * non-negative root of the variance `v`.
   */
  function Exceeds(dev: real, t: real, v: real): (r: bool)
    requires v >= 0.0
    ensures forall s {:trigger IsRoot(s, v)} :: IsRoot(s, v) ==> (r <==> Abs(dev) > t * s)
  {
    SquaredDecisionAtEveryRoot(dev, t, v);
    SquaredDecision(dev, t, v)
  }

  /** With no spread in the window, any deviation at all is anomalous. */
  lemma ZeroVarianceFlagsAnyDeviation(dev: real, t: real)
    ensures Exceeds(dev, t, 0.0) <==> dev != 0.0
  {
    if t >= 0.0 {
      assert t * t * 0.0 == 0.0;
      SelfProductSign(dev, dev);
    }
  }

  /** With a non-negative threshold, a sample exactly at the mean is never anomalous. */
  lemma ZeroDeviationNeverExceeds(t: real, v: real)
    requires t >= 0.0 && v >= 0.0
    ensures !Exceeds(0.0, t, v)
  {
    ProductNonNegative(t, t);
    ProductNonNegative(t * t, v);
    assert Exceeds(0.0, t, v) <==> 0.0 > t * t * v;
  }

  /**
   * Lowering the threshold never clears a flag: whatever is anomalous under
   * `t2` is anomalous under every `t1 <= t2`.
   */
  lemma ExceedsAntitoneInThreshold(dev: real, t1: real, t2: real, v: real)
    requires v >= 0.0
    requires t1 <= t2
    requires Exceeds(dev, t2, v)
    ensures Exceeds(dev, t1, v)
  {
    if t2 >= 0.0 {
      ProductNonNegative(t2 * t2, v);
      assert dev == 0.0 ==> dev * dev == 0.0;
      if t1 >= 0.0 {
        SquareStrictlyMonotone(t1, t2);
        ProductNonNegative(t2 * t2 - t1 * t1, v);
        assert (t2 * t2 - t1 * t1) * v == t2 * t2 * v - t1 * t1 * v;
      }
    }
  }
}
